=== FILE: README.md ===
# Student report extractor — Dafny model

This project models the core of `data_extractor.py`: the function `extract_data_to_json`.
The function reads monthly-report spreadsheets, one sheet per grade ("GRADE 5" to "GRADE 8").
It turns every data row into a student record keyed by `"<student id>_<national id>"`.
A record holds the student's name, class and general behaviour. It also holds, per subject,
the five sub-fields of that subject's column block.

The model is a pure fold. A workbook is a map from sheet name to rows, and a row is a
sequence of cells. The fold visits the configured sheets in order and the rows of each
sheet top to bottom. Each row becomes an outcome (`Accepted`, `Skipped` or `Failed`), and
the accepted outcomes are written into one map.

Modules, in dependency order:

- `Wrappers`: `Option` and `Result`.
- `Layout`: the fixed sheet layout.
  - the sheet names and the twelve English subject codes;
  - the column indices and the five-column subject blocks;
  - the three header rows and the "N/A" sentinel.
- `Decimal`: ASCII digit strings, their values, and `str(int(n))` as a canonical rendering.
- `Strings`: Python's `strip()` over the full `str.isspace` set, `replace('.', '', 1)`, `endswith`,
  and the text before a separator.
- `Cells`: a cell, and the per-cell normalisations.
  - A cell is absent (NaN), a string, or a number carried as its Python `str()` rendering.
  - The normalisations cover the student id, the national id, the text fields and the
    sub-field values.
- `Rows`: one row to one outcome.
  - id checks and the composite key;
  - the record fields and the subject blocks with their early stop and inclusion rule.
- `Extraction`: the header skip, the row and sheet loops, and last-write-wins accumulation.
- `Scenarios`: worked inputs.
  - the id examples;
  - a row with seven grade columns;
  - a one-sheet workbook with one data row.

A student id typed as text is handled differently from the same id stored as a number:
- The text `"7.0"` passes the `isdigit` guard, but Python's `int("7.0")` raises. The model
  records this as a failed row (`Failed(NotAnInteger(..))`), which the row-level exception
  handler skips.
- A numeric `7.0` is truncated to `"7"`.
- A text id of more than 4300 digits passes the guard, but `int()` raises on it under
  Python's default `sys.int_max_str_digits` (CPython 3.11 and later, and the 3.7.14,
  3.8.14, 3.9.14 and 3.10.7 security releases). The model follows these versions and fails
  the row (`Failed(TooManyDigits(..))`). Leading zeros count towards the 4300.

Two further consequences of the code:
- A repeated key keeps only the last row written under it, so two valid rows can yield
  one record.
- A row whose ids pass but which has fewer than five columns raises on `row[2..4]`, and is
  also a failed row.

## Model

| member | source | states |
|---|---|---|
| Layout.FitsIffCovered | data_extractor.py:113-119 | The block of subject `t` lies inside a row of width `w` exactly when `t < min(12, (w - 5) div 5)` (none when `w < 5`). |
| Layout.RankOfCode | data_extractor.py:25-38 | The twelve subject codes are distinct, so each code names exactly one position in the subject list. |
| Decimal.Render | data_extractor.py:91 | `str(int(n))` is a digit string with no leading zero, and it denotes `n`. |
| Decimal.RenderValue | data_extractor.py:91 | Rendering the value of a canonical digit string gives that string back. With `Render`'s contract this makes rendering a bijection between naturals and canonical strings. |
| Decimal.LeadingZeroValue | data_extractor.py:91 | A leading '0' does not change the integer a digit string denotes. |
| Strings.Strip | data_extractor.py:94 | `str.strip()`; specified by `Strings.StripSpec` and `Strings.StripUnique`. |
| Strings.StripSpec | data_extractor.py:94 | `strip()` returns a trimmed slice of its input, with only whitespace cut from either end. |
| Strings.StripUnique | data_extractor.py:94 | Splitting a string into whitespace, a trimmed middle and whitespace, `strip()` returns that middle. |
| Strings.StripIdempotent | data_extractor.py:106-108 | A derived algebraic property of the modelled `strip()`, which the source applies once per field: stripping twice is stripping once, so each stripped field is already trimmed. |
| Strings.EndsWith | data_extractor.py:95 | `str.endswith(suffix)`: the string's last `len(suffix)` characters are `suffix`; used by `Cells.NationalIdOf`, whose suffix cases `Cells.NationalIdDropsOneSuffix` and `Cells.NationalIdKeepsOtherText` state. |
| Strings.IntegerPart | data_extractor.py:91 | The part of a number's rendering that `int` keeps: its contract says it holds no '.', is a prefix of the input, and stops only at a '.'; `Cells.StudentIdOfFloat` applies it to a float id. |
| Strings.RemoveFirstDot | data_extractor.py:91 | `replace('.', '', 1)` deletes exactly the first '.', and is the identity on a string without one. |
| Strings.DotGuardCharacterised | data_extractor.py:91 | The student-id guard holds exactly when the string has only digits and '.', at most one '.', and at least one digit. |
| Cells.StudentIdOf | data_extractor.py:87-91 | An id is accepted exactly when the cell is present, passes the guard, and is neither a dotted string nor a string of more than 4300 digits. Such a string passing the guard makes `int` raise. An accepted id is canonical and has the value of the integer part of the cell's rendering. |
| Cells.Cell.Str | data_extractor.py:91-94 | `str(cell)`: a string cell's text, a number's rendering, and "nan" for an absent (NaN) cell; `Cells.MissingTextFieldIsNan` states the NaN case for the text fields. |
| Cells.Cell.Present | data_extractor.py:91 | `pd.notna(cell)`: true exactly for a cell that is not NaN; the `Cells.StudentIdOf` contract states how it gates the student id. |
| Cells.ValidNationalId | data_extractor.py:99 | The national-id half of the skip test: the cleaned id is neither empty nor "nan"; `Rows.ProcessRowOutcome` states the skip through `Rows.IdsAccepted`, and `Rows.AcceptedKey` states that every key's national id satisfies it. |
| Cells.NationalIdOf | data_extractor.py:94-96 | The national id is the stripped string form, minus one trailing ".0" when present. |
| Cells.NationalIdDropsOneSuffix | data_extractor.py:94-96 | A national id whose trimmed text is `d + ".0"` becomes `d`: one suffix only, so "1.0.0" gives "1.0". |
| Cells.NationalIdKeepsOtherText | data_extractor.py:94-96 | A national id whose trimmed text does not end in ".0" is that trimmed text. |
| Cells.TextField | data_extractor.py:106-108 | The stripped string form of a name, class or behaviour cell, with no sentinel; `Cells.MissingTextFieldIsNan` gives the absent case and `Strings.StripSpec` the rest. |
| Cells.SubFieldValue | data_extractor.py:125 | The stripped string form of a present cell, "N/A" for an absent one; stated per column by `Rows.BlockColumns`. |
| Cells.MissingTextFieldIsNan | data_extractor.py:106-108 | An absent name, class or behaviour cell yields "nan"; these fields have no "N/A" sentinel. |
| Cells.StudentIdOfCanonicalText | data_extractor.py:91 | A student id typed as canonical digits, at most 4300 of them, is kept unchanged. |
| Cells.StudentIdDropsLeadingZero | data_extractor.py:91 | A leading zero is dropped ("007" gives "7"). |
| Cells.StudentIdOfFloat | data_extractor.py:91 | A numeric id rendered with a fraction is truncated to its integer part ("7.0" gives "7"). |
| Cells.StudentIdOfDottedText | data_extractor.py:91 | The same digits typed as a dotted string make the row fail instead. |
| Cells.StudentIdOfLongText | data_extractor.py:91 | A student id typed as more than 4300 digits makes `int` raise, under Python's default `sys.int_max_str_digits`. |
| Rows.BlockAt | data_extractor.py:121-126 | The five sub-fields of one subject block; specified by `Rows.BlockColumns` and `Rows.BlockHasDataIff`. |
| Rows.BlockColumns | data_extractor.py:121-126 | Sub-field `f` of subject `t` is the value of column `5 + 5t + f`: its stripped text, or "N/A" when absent. |
| Rows.BlockHasDataIff | data_extractor.py:124-130 | A block is kept exactly when one of its five cells is present and its stripped text is not "N/A". |
| Rows.GradesFrom | data_extractor.py:113-133 | Every entry is the block of a subject that fits and has data. Every such subject appears. Entries are in subject order, so none appears twice. |
| Rows.GradesWithinCovered | data_extractor.py:113-119 | The grades of a row hold only subjects among the first `min(12, (width - 5) div 5)`. |
| Rows.SubjectIncluded | data_extractor.py:113-133 | A subject appears in a row's grades exactly when its block fits and has data, and then with that block. |
| Rows.Grades | data_extractor.py:113-133 | A row's `grades`: the blocks of subjects that fit and have data, in subject order; specified by `Rows.GradesFrom` and `Rows.SubjectIncluded`. |
| Rows.MakeKey | data_extractor.py:103 | `f"{student_id}_{national_id}"`; specified by `Rows.SplitMakeKey` and `Rows.MakeKeyInjective`. |
| Rows.SplitMakeKey | data_extractor.py:103 | A key splits at its first '_' back into the student id and the national id it was made from. |
| Rows.MakeKeyInjective | data_extractor.py:103 | Distinct pairs of a digit student id and a national id give distinct keys; every accepted student id is digits. |
| Rows.IdsAccepted | data_extractor.py:91-100 | Both ids pass the row checks: the student id is accepted and the national id is valid; `Rows.ProcessRowOutcome` states that a row is accepted exactly when this holds and column 4 exists. |
| Rows.ProcessRow | data_extractor.py:86-135 | The body of the row loop as an outcome; specified by `Rows.ProcessRowOutcome`, `Rows.AcceptedKey` and `Rows.AcceptedRecord`. |
| Rows.AcceptedKey | data_extractor.py:99-103 | An accepted row is keyed `sid + "_" + nid` by its two cleaned ids. The key is well formed: a canonical student id, and a national id neither empty nor "nan". |
| Rows.AcceptedRecord | data_extractor.py:105-110 | An accepted row's record holds the stripped columns 2, 3 and 4 and the row's grades. |
| Rows.ProcessRowOutcome | data_extractor.py:86-100 | A row fails exactly when column 1 is missing, when `int` rejects the student id (a dotted text id or one of more than 4300 digits), or when its ids pass but column 4 is missing. It is skipped exactly when column 1 is present, `int` does not raise on the student id, and either the guard rejects the id or the national id is empty or "nan". Otherwise it is accepted. |
| Extraction.Absorb | data_extractor.py:135 | An accepted row adds or overwrites its key and leaves other keys alone. A skipped or failed row leaves the map as it was. |
| Extraction.DataRows | data_extractor.py:78-82 | The data rows are the sheet's rows after the first three, in order. |
| Extraction.ExtractSheet | data_extractor.py:75-135 | One sheet's pass: the row loop over its data rows; `Extraction.HeaderRowsIgnored` and `Extraction.ExtractSheetsIsRowFold` state it. |
| Extraction.HeaderRowsIgnored | data_extractor.py:78-82 | The three header rows never contribute, whatever they hold. |
| Extraction.RejectedRowLeavesMap | data_extractor.py:99-100 | A skipped or failing row leaves the map exactly as the rows before it left it. |
| Extraction.Accumulate | data_extractor.py:85-135 | The row loop's writes into the map, in order; specified by `Extraction.LastWriteWins` against `Extraction.LastAccepted`. |
| Extraction.Outcomes | data_extractor.py:85-135 | The outcome of each row, one per row and in order; its contract says entry `i` is `Rows.ProcessRow` of row `i`. |
| Extraction.ExtractRows | data_extractor.py:85-135 | The row loop over a run of rows; it is `Extraction.Accumulate` over `Extraction.Outcomes`, so `Extraction.LastWriteWins` states what it leaves in the map, and `Extraction.ExtractSheetsIsRowFold` reduces the sheet loop to it. |
| Extraction.LastWriteWins | data_extractor.py:85-135 | After a run of rows, each key holds the record of the last accepted row with that key. A key no accepted row has keeps its earlier state. |
| Extraction.LastAcceptedAppend | data_extractor.py:70-85 | In rows `a` followed by rows `b`, the last accepted row for a key is the one in `b` if `b` has one. So later sheets and rows override earlier ones. |
| Extraction.ExtractSheetsIsRowFold | data_extractor.py:70-85 | The sheet loop over the configured names is the row loop over all their data rows, concatenated in configured order. |
| Extraction.ExtractSheets | data_extractor.py:70-143 | The sheet loop over the configured names; specified by `Extraction.ExtractSheetsIsRowFold`. |
| Extraction.Extract | data_extractor.py:61-143 | `extract_data_to_json` without its I/O; specified by `Extraction.ExtractLastWriteWins`, `Extraction.ExtractLaterSheetWins` and `Extraction.ExtractKeysWellFormed`. |
| Extraction.ExtractLastWriteWins | data_extractor.py:61-143 | A key is in the output exactly when some data row of a configured sheet was accepted with it. It holds the record of the last such row. |
| Extraction.LastAcceptedNoneIff | data_extractor.py:85-135 | The reference scan finds no record for a key exactly when no outcome accepts that key, so "a key is written" means "some row was accepted with it". |
| Extraction.ExtractLaterSheetWins | data_extractor.py:70-135 | The last record a configured sheet accepts for a key is the output value for that key when no later configured sheet accepts it. |
| Extraction.ExtractKeysWellFormed | data_extractor.py:99-135 | Every output key is a canonical student id, '_', and a national id neither empty nor "nan". |
| Extraction.SingleRowExtracted | data_extractor.py:135 | A single accepted row yields a map holding its record alone. |
| Scenarios.RejectedStudentIds | data_extractor.py:91 | "abc", "." and an absent cell are rejected as student ids. |
| Scenarios.NationalIdOneSuffixOnly | data_extractor.py:94-96 | "1.0.0" gives "1.0", not "1". |
| Scenarios.SevenGradeColumns | data_extractor.py:113-119 | A row of twelve columns holds at most the first subject. It never fails unless `int` rejects its student id. |
| Scenarios.SampleGrades | data_extractor.py:113-133 | A ten-column row whose columns 5 to 9 hold "A" to "E" gives exactly one subject block, islamic_education, with those five values. |
| Scenarios.SampleKey | data_extractor.py:103 | Ids "55" and "100200300" give the key "55_100200300". |
| Scenarios.SampleRowOutcome | data_extractor.py:86-135 | The sample row (ids 100200300.0 and 55.0) is accepted under "55_100200300" with its trimmed fields and one block. |
| Scenarios.SampleWorkbook | data_extractor.py:70-135 | A workbook with sheet "GRADE 5" holding three header rows and the sample row yields exactly one record. |

## Left out

- Reading the workbook (`pd.read_excel`) is left out: it is foreign-library I/O. A sheet arrives as a sequence of rows of cells.
  - A configured sheet that is absent is skipped.
  - Other sheet-level failures are not modelled.
- The input-file existence check and its early return (lines 63-66) are left out, because they are I/O.
- Writing the JSON file and the final summary (lines 146-150) are left out, because they are I/O.
- All `print` logging, including error messages and row numbers, is left out: the model keeps the cause of a failed row as a `RowError` and stops there.
- Floating-point formatting is left out.
  - A numeric cell carries its Python `str()` rendering as given.
  - Scientific-notation renderings such as "1e+20" simply fail the guard, as they do in Python.
- Cells.StudentIdOf: digits are ASCII only. A student id made of other Unicode decimal digits (such as Arabic-Indic '٥') passes Python's `isdigit` and `int`, so the source accepts it; the model skips the row instead.
- Rows.ProcessRowOutcome: a student id made of characters that `isdigit` accepts but `int` does not (such as '²' or '①') passes the guard and then raises, so the source fails the row; the model skips it. The output map is the same in both cases, since neither adds an entry.
- Python's dict key order in the output file (a key keeps the position of its first insertion) is not modelled. The output is a Dafny `map`, so only its contents are stated.
- A pandas frame gives every row of a sheet the same width. The model allows rows of any width, which is more general.
- An absent cell always renders as "nan". Other missing-value objects pandas may produce (`None`, `NaT`) are not distinguished.
- The Arabic subject labels are presentation only and are left out. Subjects are identified by their English codes.

=== FILE: cells.dfy ===
/** Spreadsheet cells and the per-cell normalisations of the row loop
    (data_extractor.py, lines 87-96, 105-108 and 125). */
module Cells {
  import opened Wrappers
  import opened Decimal
  import opened Strings
  import opened Layout

  /** A cell as the data frame holds it: absent (NaN), a string, or a number given by
      its Python `str()` rendering (an int as "7", a float as "7.0"). A numeric NaN is
      always `Missing`, so a `Number` rendering is never "nan". */
  datatype Cell = Missing | Text(text: string) | Number(rendering: string) {

    /** `pd.notna(cell)`. */
    predicate Present() {
      !Missing?
    }

    /** `str(cell)`: an absent cell renders as "nan". */
    function Str(): string {
      match this
      case Missing => "nan"
      case Text(s) => s
      case Number(s) => s
    }
  }

  /** Why a row raised inside the row loop. */
  datatype RowError =
    | ColumnMissing(column: nat)   // `row[column]` beyond the row's width
    | NotAnInteger(text: string)   // `int(text)` on a string such as "7.0"
    | TooManyDigits(text: string)  // `int(text)` on more than `IntMaxStrDigits` digits

  /** Python's default `sys.int_max_str_digits`: `int()` of a decimal string with more digits
      than this raises `ValueError` (CPython 3.11 and later, and the 3.7.14, 3.8.14, 3.9.14
      and 3.10.7 security releases). */
  const IntMaxStrDigits: nat := 4300

  /** Student id cleaning, `str(int(raw)) if pd.notna(raw) and str(raw).replace('.', '', 1).isdigit()
      else None`. `Success(None)` rejects the id; `Failure` is the `ValueError` raised by `int`
      on a string that still holds a '.' or has more than `IntMaxStrDigits` digits. An accepted
      id is the canonical decimal rendering of the integer part of the cell (a float is
      truncated, leading zeros are dropped). */
  function StudentIdOf(c: Cell): (r: Result<Option<string>, RowError>)
    ensures r.Success? && r.value.Some?
            <==> && c.Present() && DigitsWithOptionalDot(c.Str())
                 && !(c.Text? && ('.' in c.text || |c.text| > IntMaxStrDigits))
    ensures r.Failure? <==>
              c.Text? && DigitsWithOptionalDot(c.text) && ('.' in c.text || |c.text| > IntMaxStrDigits)
    ensures r.Success? && r.value.Some? ==>
              && IsCanonical(r.value.value)
              && AllDigits(IntegerPart(c.Str()))
              && Value(r.value.value) == Value(IntegerPart(c.Str()))
  {
    DotGuardCharacterised(c.Str());
    if c.Missing? || !IsDigitString(RemoveFirstDot(c.Str())) then Success(None)
    else
      var whole := IntegerPart(c.Str());
      assert AllDigits(whole) by {
        forall i | 0 <= i < |whole| ensures IsDigit(whole[i]) {
          assert whole[i] == c.Str()[i];
        }
      }
      match c
      case Text(s) =>
        if '.' in s then Failure(NotAnInteger(s))
        else if |s| > IntMaxStrDigits then Failure(TooManyDigits(s))
        else
          assert whole == s;
          Success(Some(Render(Value(s))))
      case Number(_) => Success(Some(Render(Value(whole))))
  }

  /** National id cleaning: the stripped string form, with one trailing ".0" removed. */
  function NationalIdOf(c: Cell): (r: string)
    ensures EndsWith(Strip(c.Str()), ".0") ==> r + ".0" == Strip(c.Str())
    ensures !EndsWith(Strip(c.Str()), ".0") ==> r == Strip(c.Str())
  {
    var t := Strip(c.Str());
    if EndsWith(t, ".0") then t[..|t| - 2] else t
  }

  /** A national id the row check accepts: not empty and not "nan". */
  predicate ValidNationalId(nid: string) {
    nid != "" && nid != "nan"
  }

  /** A name, class or behaviour field: the stripped string form, with no sentinel. */
  function TextField(c: Cell): string {
    Strip(c.Str())
  }

  /** An absent name, class or behaviour cell yields the text "nan", not "N/A". */
  lemma MissingTextFieldIsNan()
    ensures TextField(Missing) == "nan"
  {
    var n := "nan";
    assert Trimmed(n);
    assert [] + n + [] == n;
    StripUnique([], n, []);
  }

  /** A subject sub-field: the stripped string form of a present cell, "N/A" for an absent one. */
  function SubFieldValue(c: Cell): string {
    if c.Present() then Strip(c.Str()) else NotAvailable
  }

  /** A national id whose trimmed text is `d + ".0"` loses exactly that one ".0":
      "12345.0" gives "12345" and "1.0.0" gives "1.0". */
  lemma NationalIdDropsOneSuffix(c: Cell, p: string, d: string, q: string)
    requires c.Str() == p + d + ".0" + q
    requires AllSpace(p) && AllSpace(q) && (d == [] || !IsSpace(d[0]))
    ensures NationalIdOf(c) == d
  {
    var m := d + ".0";
    assert !IsSpace('0') && !IsSpace('.');
    assert m[|m| - 1] == '0';
    if d != [] { assert m[0] == d[0]; } else { assert m[0] == '.'; }
    assert Trimmed(m);
    assert p + d + ".0" + q == p + m + q;
    StripUnique(p, m, q);
    assert m[..|m| - 2] == d;
  }

  /** A national id whose trimmed text does not end in ".0" is that trimmed text. */
  lemma NationalIdKeepsOtherText(c: Cell, p: string, m: string, q: string)
    requires c.Str() == p + m + q
    requires AllSpace(p) && AllSpace(q) && Trimmed(m) && !EndsWith(m, ".0")
    ensures NationalIdOf(c) == m
  {
    StripUnique(p, m, q);
  }

  /** A student id typed as canonical digits, within `int`'s digit limit, is kept unchanged. */
  lemma StudentIdOfCanonicalText(s: string)
    requires IsCanonical(s) && |s| <= IntMaxStrDigits
    ensures StudentIdOf(Text(s)) == Success(Some(s))
  {
    assert '.' !in s by {
      assert forall i :: 0 <= i < |s| ==> s[i] != '.';
    }
    assert RemoveFirstDot(s) == s;
    RenderValue(s);
  }

  /** A student id typed as more than `IntMaxStrDigits` digits makes `int` raise. */
  lemma StudentIdOfLongText(s: string)
    requires IsDigitString(s) && |s| > IntMaxStrDigits
    ensures StudentIdOf(Text(s)) == Failure(TooManyDigits(s))
  {
    assert '.' !in s by {
      assert forall i :: 0 <= i < |s| ==> s[i] != '.';
    }
    assert RemoveFirstDot(s) == s;
  }

  /** Leading zeros are dropped: "007" gives "7" and "00" gives "0" (they count towards
      `int`'s digit limit). */
  lemma StudentIdDropsLeadingZero(s: string)
    requires IsCanonical(s) && |s| < IntMaxStrDigits
    ensures StudentIdOf(Text("0" + s)) == Success(Some(s))
  {
    var z := "0" + s;
    assert '.' !in z by {
      assert forall i :: 0 <= i < |z| ==> z[i] != '.';
    }
    assert RemoveFirstDot(z) == z;
    assert IsDigitString(z) by {
      assert forall i :: 1 <= i < |z| ==> z[i] == s[i - 1];
    }
    LeadingZeroValue(s);
    RenderValue(s);
  }

  /** A numeric id rendered with a fraction is truncated to its integer part:
      7.0 gives "7" (and 7.5 gives "7"). */
  lemma StudentIdOfFloat(s: string, frac: string)
    requires IsCanonical(s) && AllDigits(frac)
    ensures StudentIdOf(Number(s + "." + frac)) == Success(Some(s))
  {
    var n := s + "." + frac;
    assert '.' !in s by {
      assert forall i :: 0 <= i < |s| ==> s[i] != '.';
    }
    assert n == s + ['.'] + frac;
    PrefixBeforeSplit(s, '.', frac);
    assert RemoveFirstDot(n) == s + frac;
    assert IsDigitString(s + frac) by {
      assert forall i :: 0 <= i < |s + frac| ==> (s + frac)[i] == if i < |s| then s[i] else frac[i - |s|];
    }
    RenderValue(s);
  }

  /** The same text typed as a string raises instead: `int("7.0")` is a ValueError. */
  lemma StudentIdOfDottedText(s: string, frac: string)
    requires IsCanonical(s) && AllDigits(frac)
    ensures StudentIdOf(Text(s + "." + frac)).Failure?
  {
    var n := s + "." + frac;
    assert '.' !in s by {
      assert forall i :: 0 <= i < |s| ==> s[i] != '.';
    }
    assert n == s + ['.'] + frac;
    PrefixBeforeSplit(s, '.', frac);
    assert n[|s|] == '.';
    assert RemoveFirstDot(n) == s + frac;
    assert IsDigitString(s + frac) by {
      assert forall i :: 0 <= i < |s + frac| ==> (s + frac)[i] == if i < |s| then s[i] else frac[i - |s|];
    }
  }
}

=== FILE: decimal.dfy ===
/** Decimal digit strings and their integer values: the `isdigit` guard and the
    `str(int(...))` rendering applied to student ids (data_extractor.py, line 91). */
module Decimal {

  predicate IsDigit(c: char) {
    '0' <= c <= '9'
  }

  predicate AllDigits(s: string) {
    forall i :: 0 <= i < |s| ==> IsDigit(s[i])
  }

  /** Python's `str.isdigit` over ASCII digits: non-empty and every character a digit. */
  predicate IsDigitString(s: string) {
    |s| > 0 && AllDigits(s)
  }

  /** The form `str(int(x))` produces for a non-negative integer: digits, no leading zero
      except for "0" itself. */
  predicate IsCanonical(s: string) {
    IsDigitString(s) && (|s| == 1 || s[0] != '0')
  }

  function DigitValue(c: char): nat
    requires IsDigit(c)
  {
    (c as int - '0' as int) as nat
  }

  function DigitChar(d: nat): (c: char)
    requires d < 10
    ensures IsDigit(c) && DigitValue(c) == d
  {
    ('0' as int + d) as char
  }

  /** The integer a digit string denotes (0 for the empty string). */
  function Value(s: string): nat
    requires AllDigits(s)
  {
    if s == [] then 0 else 10 * Value(s[..|s| - 1]) + DigitValue(s[|s| - 1])
  }

  /** Decimal rendering of a natural number, as Python's `str` of an `int`. */
  function Render(n: nat): (r: string)
    ensures IsCanonical(r)
    ensures Value(r) == n
  {
    if n < 10 then [DigitChar(n)]
    else
      var p := Render(n / 10);
      var r := p + [DigitChar(n % 10)];
      assert r[..|r| - 1] == p;
      r
  }

  /** A canonical string whose first digit is not '0' denotes a positive number. */
  lemma {:induction false} ValuePositive(s: string)
    requires IsDigitString(s) && s[0] != '0'
    ensures Value(s) > 0
  {
    if |s| > 1 {
      var p := s[..|s| - 1];
      assert p[0] == s[0];
      ValuePositive(p);
    }
  }

  /** Rendering the value of a canonical string gives the string back: together with
      `Value(Render(n)) == n`, `Render` is a bijection between naturals and canonical strings. */
  lemma {:induction false} RenderValue(s: string)
    requires IsCanonical(s)
    ensures Render(Value(s)) == s
  {
    if |s| > 1 {
      var p := s[..|s| - 1];
      assert p[0] == s[0];
      ValuePositive(p);
      assert IsCanonical(p);
      RenderValue(p);
      var n := Value(s);
      assert n == 10 * Value(p) + DigitValue(s[|s| - 1]);
      assert n / 10 == Value(p) && n % 10 == DigitValue(s[|s| - 1]);
      assert s == p + [s[|s| - 1]];
    }
  }

  /** Leading zeros carry no value. */
  lemma {:induction false} LeadingZeroValue(s: string)
    requires AllDigits(s)
    ensures Value("0" + s) == Value(s)
  {
    if s != [] {
      var p := s[..|s| - 1];
      assert ("0" + s)[..|"0" + s| - 1] == "0" + p;
      LeadingZeroValue(p);
    }
  }
}

=== FILE: extraction.dfy ===
/** The extraction run: each row turned into an outcome, outcomes folded into one map
    sheet by sheet in configured order, last write winning (data_extractor.py, lines 57-143). */
module Extraction {
  import opened Wrappers
  import opened Layout
  import opened Rows

  type Sheet = seq<Row>

  /** The sheets of an input file by name; a configured name that is absent is a sheet-level
      error and the sheet is skipped. */
  type Workbook = map<string, Sheet>

  type Students = map<string, Record>

  /** One pass of the row loop on the row's outcome: an accepted row is written under its
      key, replacing any earlier record there; a skipped or failing row leaves the map as it
      was, since the insert is the last step of the row. */
  function Absorb(acc: Students, o: RowOutcome): (m: Students)
    ensures o.Accepted? ==> m.Keys == acc.Keys + {o.key} && m[o.key] == o.record
    ensures o.Accepted? ==> forall k :: k in acc && k != o.key ==> m[k] == acc[k]
    ensures !o.Accepted? ==> m == acc
  {
    match o
    case Accepted(key, record) => acc[key := record]
    case _ => acc
  }

  /** Applies outcomes in order. */
  function Accumulate(acc: Students, os: seq<RowOutcome>): Students
    decreases |os|
  {
    if os == [] then acc else Accumulate(Absorb(acc, os[0]), os[1..])
  }

  /** The outcome of every row, in order. */
  function Outcomes(rows: seq<Row>): (os: seq<RowOutcome>)
    ensures |os| == |rows|
    ensures forall i :: 0 <= i < |rows| ==> os[i] == ProcessRow(rows[i])
  {
    seq(|rows|, i requires 0 <= i < |rows| => ProcessRow(rows[i]))
  }

  /** The row loop over `rows`, top to bottom. */
  function ExtractRows(acc: Students, rows: seq<Row>): Students {
    Accumulate(acc, Outcomes(rows))
  }

  /** `df.iloc[3:]`: the rows after the three header rows, in order. */
  function DataRows(sheet: Sheet): (rows: seq<Row>)
    ensures |rows| == if |sheet| <= DataStartRow then 0 else |sheet| - DataStartRow
    ensures forall i :: 0 <= i < |rows| ==> rows[i] == sheet[i + DataStartRow]
  {
    if |sheet| <= DataStartRow then [] else sheet[DataStartRow..]
  }

  /** All rows of one sheet. */
  function ExtractSheet(acc: Students, sheet: Sheet): Students {
    ExtractRows(acc, DataRows(sheet))
  }

  /** The sheet loop over `names`, in order; an absent sheet contributes nothing. */
  function ExtractSheets(acc: Students, wb: Workbook, names: seq<string>): Students
    decreases |names|
  {
    if names == [] then acc
    else
      var next := if names[0] in wb then ExtractSheet(acc, wb[names[0]]) else acc;
      ExtractSheets(next, wb, names[1..])
  }

  /** `extract_data_to_json` without its I/O: the map written to the output file. */
  function Extract(wb: Workbook): Students {
    ExtractSheets(map[], wb, SheetNames)
  }

  /** Every data row the run visits, sheet by sheet in configured order. */
  function AllDataRows(wb: Workbook, names: seq<string>): seq<Row>
    decreases |names|
  {
    if names == [] then []
    else (if names[0] in wb then DataRows(wb[names[0]]) else []) + AllDataRows(wb, names[1..])
  }

  /** Reference definition of last-write-wins: the record of the last accepted outcome whose
      key is `key`, scanning from the end. */
  function LastAccepted(os: seq<RowOutcome>, key: string): Option<Record>
    decreases |os|
  {
    if os == [] then None
    else if os[|os| - 1].Accepted? && os[|os| - 1].key == key then Some(os[|os| - 1].record)
    else LastAccepted(os[..|os| - 1], key)
  }

  lemma {:induction false} OutcomesAppend(a: seq<Row>, b: seq<Row>)
    ensures Outcomes(a + b) == Outcomes(a) + Outcomes(b)
  {
    var l := Outcomes(a + b);
    var r := Outcomes(a) + Outcomes(b);
    assert |l| == |r|;
    forall i | 0 <= i < |l| ensures l[i] == r[i] {
      if i < |a| { assert (a + b)[i] == a[i]; } else { assert (a + b)[i] == b[i - |a|]; }
    }
  }

  /** Applying `a + b` is applying `a`, then `b`. */
  lemma {:induction false} AccumulateAppend(acc: Students, a: seq<RowOutcome>, b: seq<RowOutcome>)
    ensures Accumulate(acc, a + b) == Accumulate(Accumulate(acc, a), b)
    decreases |a|
  {
    if a == [] {
      assert a + b == b;
    } else {
      assert (a + b)[0] == a[0];
      assert (a + b)[1..] == a[1..] + b;
      AccumulateAppend(Absorb(acc, a[0]), a[1..], b);
    }
  }

  /** The map after a run of outcomes holds, under each key, the record of the last accepted
      outcome with that key, and otherwise exactly what it held before. */
  lemma {:induction false} LastWriteWins(acc: Students, os: seq<RowOutcome>, key: string)
    ensures var m := Accumulate(acc, os);
            match LastAccepted(os, key)
            case Some(r) => key in m && m[key] == r
            case None => (key in m <==> key in acc) && (key in acc ==> m[key] == acc[key])
    decreases |os|
  {
    if os != [] {
      var init := os[..|os| - 1];
      var last := os[|os| - 1];
      assert os == init + [last];
      AccumulateAppend(acc, init, [last]);
      assert Accumulate(Accumulate(acc, init), [last]) == Absorb(Accumulate(acc, init), last);
      LastWriteWins(acc, init, key);
    }
  }

  /** Later outcomes take precedence: the last accepted outcome with a key in `a + b` is the
      one in `b` if `b` has one, so a later sheet overrides an earlier one. */
  lemma {:induction false} LastAcceptedAppend(a: seq<RowOutcome>, b: seq<RowOutcome>, key: string)
    ensures LastAccepted(a + b, key)
            == if LastAccepted(b, key).Some? then LastAccepted(b, key) else LastAccepted(a, key)
    decreases |b|
  {
    if b == [] {
      assert a + b == a;
    } else {
      var ab := a + b;
      assert ab[|ab| - 1] == b[|b| - 1];
      assert ab[..|ab| - 1] == a + b[..|b| - 1];
      LastAcceptedAppend(a, b[..|b| - 1], key);
    }
  }

  /** The sheet loop is the row loop over all data rows of the configured sheets. */
  lemma {:induction false} ExtractSheetsIsRowFold(acc: Students, wb: Workbook, names: seq<string>)
    ensures ExtractSheets(acc, wb, names) == ExtractRows(acc, AllDataRows(wb, names))
    decreases |names|
  {
    if names != [] {
      var rows := if names[0] in wb then DataRows(wb[names[0]]) else [];
      var next := if names[0] in wb then ExtractSheet(acc, wb[names[0]]) else acc;
      assert next == ExtractRows(acc, rows);
      ExtractSheetsIsRowFold(next, wb, names[1..]);
      OutcomesAppend(rows, AllDataRows(wb, names[1..]));
      AccumulateAppend(acc, Outcomes(rows), Outcomes(AllDataRows(wb, names[1..])));
    }
  }

  /** The output of a run: a key is present exactly when some data row of a configured sheet
      was accepted with it, and it holds the record of the last such row, sheets taken in
      configured order and rows top to bottom. */
  lemma ExtractLastWriteWins(wb: Workbook, key: string)
    ensures var m := Extract(wb);
            match LastAccepted(Outcomes(AllDataRows(wb, SheetNames)), key)
            case Some(r) => key in m && m[key] == r
            case None => key !in m
  {
    ExtractSheetsIsRowFold(map[], wb, SheetNames);
    LastWriteWins(map[], Outcomes(AllDataRows(wb, SheetNames)), key);
  }

  /** The reference definition finds nothing exactly when no outcome accepts the key. */
  lemma {:induction false} LastAcceptedNoneIff(os: seq<RowOutcome>, key: string)
    ensures LastAccepted(os, key).None? <==> forall i :: 0 <= i < |os| ==> !(os[i].Accepted? && os[i].key == key)
    decreases |os|
  {
    if os != [] {
      var init := os[..|os| - 1];
      LastAcceptedNoneIff(init, key);
      assert forall i :: 0 <= i < |init| ==> init[i] == os[i];
    }
  }

  /** The data rows of `names` are those of its first `i` names followed by those of the rest. */
  lemma {:induction false} AllDataRowsSplit(wb: Workbook, names: seq<string>, i: nat)
    requires i <= |names|
    ensures AllDataRows(wb, names) == AllDataRows(wb, names[..i]) + AllDataRows(wb, names[i..])
    decreases i
  {
    if i == 0 {
      assert names[..0] == [] && names[0..] == names;
    } else {
      var tail := names[1..];
      AllDataRowsSplit(wb, tail, i - 1);
      assert names[..i][0] == names[0] && names[..i][1..] == tail[..i - 1];
      assert tail[i - 1..] == names[i..];
    }
  }

  /** A record accepted in a configured sheet is the output value for its key when no later
      configured sheet accepts that key: later sheets override earlier ones. */
  lemma ExtractLaterSheetWins(wb: Workbook, key: string, i: nat, r: Record)
    requires i < |SheetNames| && SheetNames[i] in wb
    requires LastAccepted(Outcomes(DataRows(wb[SheetNames[i]])), key) == Some(r)
    requires LastAccepted(Outcomes(AllDataRows(wb, SheetNames[i + 1..])), key).None?
    ensures key in Extract(wb) && Extract(wb)[key] == r
  {
    var names := SheetNames;
    AllDataRowsSplit(wb, names, i);
    var before := AllDataRows(wb, names[..i]);
    var here := DataRows(wb[names[i]]);
    var after := AllDataRows(wb, names[i + 1..]);
    assert names[i..][0] == names[i] && names[i..][1..] == names[i + 1..];
    assert AllDataRows(wb, names[i..]) == here + after;
    OutcomesAppend(here, after);
    OutcomesAppend(before, here + after);
    LastAcceptedAppend(Outcomes(here), Outcomes(after), key);
    LastAcceptedAppend(Outcomes(before), Outcomes(here + after), key);
    ExtractLastWriteWins(wb, key);
  }

  /** The three header rows of a sheet never contribute, whatever they hold. */
  lemma HeaderRowsIgnored(acc: Students, header: seq<Row>, rows: seq<Row>)
    requires |header| == DataStartRow
    ensures ExtractSheet(acc, header + rows) == ExtractRows(acc, rows)
  {
    assert (header + rows)[DataStartRow..] == rows;
  }

  /** A row that is skipped or fails leaves the map exactly as the rows before it left it. */
  lemma RejectedRowLeavesMap(acc: Students, rows: seq<Row>, row: Row)
    requires !ProcessRow(row).Accepted?
    ensures ExtractRows(acc, rows + [row]) == ExtractRows(acc, rows)
  {
    OutcomesAppend(rows, [row]);
    AccumulateAppend(acc, Outcomes(rows), Outcomes([row]));
    assert Outcomes([row]) == [ProcessRow(row)];
  }

  /** A single accepted row yields a map holding its record alone. */
  lemma SingleRowExtracted(row: Row, key: string, record: Record)
    requires ProcessRow(row) == Accepted(key, record)
    ensures ExtractRows(map[], [row]) == map[key := record]
  {
    assert Outcomes([row]) == [Accepted(key, record)];
    assert Accumulate(map[], [Accepted(key, record)]) == Absorb(map[], Accepted(key, record));
  }

  /** Every accepted outcome of these rows has a well-formed key. */
  lemma {:induction false} OutcomeKeysWellFormed(rows: seq<Row>)
    ensures forall i :: 0 <= i < |rows| && Outcomes(rows)[i].Accepted? ==> WellFormedKey(Outcomes(rows)[i].key)
  {
    forall i | 0 <= i < |rows| && Outcomes(rows)[i].Accepted?
      ensures WellFormedKey(Outcomes(rows)[i].key)
    {
      AcceptedKey(rows[i]);
    }
  }

  /** Applying outcomes whose accepted keys are well formed keeps every key well formed. */
  lemma {:induction false} AccumulateKeys(acc: Students, os: seq<RowOutcome>)
    requires forall k :: k in acc ==> WellFormedKey(k)
    requires forall i :: 0 <= i < |os| && os[i].Accepted? ==> WellFormedKey(os[i].key)
    ensures forall k :: k in Accumulate(acc, os) ==> WellFormedKey(k)
    decreases |os|
  {
    if os != [] {
      assert forall i :: 0 <= i < |os| - 1 ==> os[1..][i] == os[i + 1];
      AccumulateKeys(Absorb(acc, os[0]), os[1..]);
    }
  }

  /** Every output key is `sid + "_" + nid` with a canonical student id and a national id
      that is neither empty nor "nan". */
  lemma ExtractKeysWellFormed(wb: Workbook)
    ensures forall k :: k in Extract(wb) ==> WellFormedKey(k)
  {
    var rows := AllDataRows(wb, SheetNames);
    ExtractSheetsIsRowFold(map[], wb, SheetNames);
    OutcomeKeysWellFormed(rows);
    AccumulateKeys(map[], Outcomes(rows));
  }
}

=== FILE: layout.dfy ===
/** The fixed spreadsheet layout the extractor is written against
    (data_extractor.py, lines 18, 25-51, 78 and 122). */
module Layout {

  /** Sheets processed, in this order. */
  const SheetNames: seq<string> := ["GRADE 5", "GRADE 6", "GRADE 7", "GRADE 8"]

  /** English subject codes, in column order; the Arabic labels are presentation only. */
  const SubjectCodes: seq<string> := [
    "islamic_education", "arabic_language", "english_language", "social_studies",
    "mathematics", "science", "physical_education", "arts",
    "music", "design_technology", "french_language", "german_language"
  ]

  /** Columns per subject block. */
  const SubColumnsCount: nat := 5

  const NationalIdColumn: nat := 0
  const StudentIdColumn: nat := 1
  const StudentNameColumn: nat := 2
  const ClassColumn: nat := 3
  const BehaviorColumn: nat := 4

  /** First column of the first subject block. */
  const GradesStartColumn: nat := 5

  /** Rows 0, 1 and 2 of every sheet are header rows. */
  const DataStartRow: nat := 3

  /** Keys of the five sub-fields of a subject block, in column order. */
  const SubFieldKeys: seq<string> :=
    ["formative_exam", "academic_level", "participation", "doing_tasks", "attending_books"]

  /** Sentinel for a missing sub-field value. */
  const NotAvailable: string := "N/A"

  /** First column of the block of subject `t` (0-based). */
  function BlockStart(t: nat): nat {
    GradesStartColumn + SubColumnsCount * t
  }

  /** Subject `t` exists and its whole block lies inside a row of `width` columns. */
  predicate Fits(width: nat, t: nat) {
    t < |SubjectCodes| && BlockStart(t) + SubColumnsCount <= width
  }

  /** Number of subjects whose blocks fit: min(12, (width - 5) div 5), or 0 for a narrower row. */
  function Covered(width: nat): nat {
    if width < GradesStartColumn then 0
    else if (width - GradesStartColumn) / SubColumnsCount < |SubjectCodes| then (width - GradesStartColumn) / SubColumnsCount
    else |SubjectCodes|
  }

  /** The subjects read from a row are exactly a prefix of the subject list,
      of length min(12, (width - 5) div 5). */
  lemma FitsIffCovered(width: nat, t: nat)
    ensures Fits(width, t) <==> t < Covered(width)
  {
    if width >= GradesStartColumn {
      var q := (width - GradesStartColumn) / SubColumnsCount;
      assert q * 5 <= width - 5 < q * 5 + 5;
      if t < q {
        assert 5 * t + 5 <= 5 * q;
      }
      if 5 + 5 * t + 5 <= width {
        assert t < q;
      }
    }
  }

  /** Subject codes are pairwise distinct, so a code names one block. */
  lemma SubjectCodesDistinct()
    ensures forall a, b :: 0 <= a < b < |SubjectCodes| ==> SubjectCodes[a] != SubjectCodes[b]
  {
  }

  /** Position of a subject code in the subject list (|SubjectCodes| when absent). */
  function SubjectRank(code: string): nat {
    RankFrom(code, 0)
  }

  function RankFrom(code: string, i: nat): (r: nat)
    requires i <= |SubjectCodes|
    ensures i <= r <= |SubjectCodes|
    ensures r < |SubjectCodes| ==> SubjectCodes[r] == code
    ensures forall j :: i <= j < r ==> SubjectCodes[j] != code
    decreases |SubjectCodes| - i
  {
    if i == |SubjectCodes| then i
    else if SubjectCodes[i] == code then i
    else RankFrom(code, i + 1)
  }

  /** The rank of the code of subject `t` is `t`. */
  lemma RankOfCode(t: nat)
    requires t < |SubjectCodes|
    ensures SubjectRank(SubjectCodes[t]) == t
  {
    SubjectCodesDistinct();
  }
}

=== FILE: rows.dfy ===
/** One spreadsheet row turned into a keyed student record: id checks, the composite
    key, the fixed text fields and the subject blocks (data_extractor.py, lines 86-135). */
module Rows {
  import opened Wrappers
  import opened Decimal
  import opened Strings
  import opened Layout
  import opened Cells

  type Row = seq<Cell>

  /** The five sub-fields of one subject, in column order (keys in `SubFieldKeys`). */
  datatype Block = Block(
    formativeExam: string,
    academicLevel: string,
    participation: string,
    doingTasks: string,
    attendingBooks: string)
  {
    function Values(): (vs: seq<string>)
      ensures |vs| == |SubFieldKeys|
    {
      [formativeExam, academicLevel, participation, doingTasks, attendingBooks]
    }

    /** Some sub-field holds real data, i.e. differs from "N/A". */
    predicate HasData() {
      exists f :: 0 <= f < |Values()| && Values()[f] != NotAvailable
    }
  }

  /** One entry of a record's `grades`: a subject code and its block. */
  datatype Grade = Grade(subject: string, block: Block)

  /** A student record; `grades` lists the kept subjects in insertion (column) order. */
  datatype Record = Record(
    studentName: string,
    className: string,
    generalBehavior: string,
    grades: seq<Grade>)

  /** What one row contributes: a keyed record, a silent skip (rejected ids), or a row error. */
  datatype RowOutcome = Accepted(key: string, record: Record) | Skipped | Failed(error: RowError)

  /** Sub-field `f` of the block of subject `t`: column `5 + 5t + f`. */
  function BlockCell(row: Row, t: nat, f: nat): Cell
    requires Fits(|row|, t) && f < SubColumnsCount
  {
    row[BlockStart(t) + f]
  }

  /** The block of subject `t`, read from columns `5 + 5t` to `5 + 5t + 4`. */
  function BlockAt(row: Row, t: nat): Block
    requires Fits(|row|, t)
  {
    var s := BlockStart(t);
    Block(SubFieldValue(row[s]), SubFieldValue(row[s + 1]), SubFieldValue(row[s + 2]),
          SubFieldValue(row[s + 3]), SubFieldValue(row[s + 4]))
  }

  /** Sub-field `f` of subject `t` (keyed `SubFieldKeys[f]`) is the value of column `5 + 5t + f`. */
  lemma BlockColumns(row: Row, t: nat)
    requires Fits(|row|, t)
    ensures forall f :: 0 <= f < SubColumnsCount ==>
              BlockAt(row, t).Values()[f] == SubFieldValue(BlockCell(row, t, f))
  {
    var s := BlockStart(t);
    var cells := row[s..s + SubColumnsCount];
    assert BlockAt(row, t).Values() == seq(SubColumnsCount, f requires 0 <= f < SubColumnsCount => SubFieldValue(cells[f]));
  }

  /** A block is kept exactly when one of its five cells is present and its stripped text is
      not "N/A"; in particular a block of five absent cells is never kept. */
  lemma BlockHasDataIff(row: Row, t: nat)
    requires Fits(|row|, t)
    ensures BlockAt(row, t).HasData() <==>
              exists f :: 0 <= f < SubColumnsCount && BlockCell(row, t, f).Present()
                          && Strip(BlockCell(row, t, f).Str()) != NotAvailable
  {
    var b := BlockAt(row, t);
    BlockColumns(row, t);
    if b.HasData() {
      var f :| 0 <= f < |b.Values()| && b.Values()[f] != NotAvailable;
      assert BlockCell(row, t, f).Present();
    }
  }

  /** Entry `gr` of the grades scanned from subject `j` on: the block of a subject at or
      after `j` that fits in the row and has data. */
  predicate FromRow(row: Row, gr: Grade, j: nat) {
    var t := SubjectRank(gr.subject);
    j <= t && Fits(|row|, t) && SubjectCodes[t] == gr.subject && gr.block == BlockAt(row, t)
    && gr.block.HasData()
  }

  /** The subject positions of a list of grades. */
  function Ranks(g: seq<Grade>): (rs: seq<nat>)
    ensures |rs| == |g|
  {
    seq(|g|, k requires 0 <= k < |g| => SubjectRank(g[k].subject))
  }

  predicate Increasing(rs: seq<nat>) {
    forall a, b :: 0 <= a < b < |rs| ==> rs[a] < rs[b]
  }

  /** Entries appear in subject order (so no subject appears twice). */
  predicate InSubjectOrder(g: seq<Grade>) {
    Increasing(Ranks(g))
  }

  lemma IncreasingCons(r: nat, rs: seq<nat>)
    requires Increasing(rs)
    requires forall k :: 0 <= k < |rs| ==> r < rs[k]
    ensures Increasing([r] + rs)
  {
  }

  lemma InSubjectOrderCons(gr: Grade, rest: seq<Grade>)
    requires InSubjectOrder(rest)
    requires forall k :: 0 <= k < |rest| ==> SubjectRank(gr.subject) < SubjectRank(rest[k].subject)
    ensures InSubjectOrder([gr] + rest)
  {
    assert Ranks([gr] + rest) == [SubjectRank(gr.subject)] + Ranks(rest);
    IncreasingCons(SubjectRank(gr.subject), Ranks(rest));
  }

  /** The grades of subjects `j` onwards: the scan stops at the first subject whose block
      does not fit, and keeps a block only when it has data. */
  function GradesFrom(row: Row, j: nat): (g: seq<Grade>)
    requires j <= |SubjectCodes|
    ensures forall k :: 0 <= k < |g| ==> FromRow(row, g[k], j)
    ensures forall t :: j <= t && Fits(|row|, t) && BlockAt(row, t).HasData() ==>
              Grade(SubjectCodes[t], BlockAt(row, t)) in g
    ensures InSubjectOrder(g)
    decreases |SubjectCodes| - j
  {
    if j == |SubjectCodes| || BlockStart(j) + SubColumnsCount > |row| then []
    else
      RankOfCode(j);
      var b := BlockAt(row, j);
      var rest := GradesFrom(row, j + 1);
      if b.HasData() then
        InSubjectOrderCons(Grade(SubjectCodes[j], b), rest);
        [Grade(SubjectCodes[j], b)] + rest
      else rest
  }

  /** The `grades` of a row. */
  function Grades(row: Row): seq<Grade> {
    GradesFrom(row, 0)
  }

  /** A row's `grades` holds only subjects among the first min(12, (width - 5) div 5). */
  lemma GradesWithinCovered(row: Row)
    ensures forall k :: 0 <= k < |Grades(row)| ==> SubjectRank(Grades(row)[k].subject) < Covered(|row|)
  {
    var g := Grades(row);
    forall k | 0 <= k < |g| ensures SubjectRank(g[k].subject) < Covered(|row|) {
      assert FromRow(row, g[k], 0);
      FitsIffCovered(|row|, SubjectRank(g[k].subject));
    }
  }

  /** Subject `t` appears in a row's `grades` exactly when its block fits in the row and
      has data, and then with that block. */
  lemma SubjectIncluded(row: Row, t: nat)
    requires t < |SubjectCodes|
    ensures (exists k :: 0 <= k < |Grades(row)| && Grades(row)[k].subject == SubjectCodes[t])
            <==> Fits(|row|, t) && BlockAt(row, t).HasData()
    ensures forall k :: 0 <= k < |Grades(row)| && Grades(row)[k].subject == SubjectCodes[t]
                        ==> Fits(|row|, t) && Grades(row)[k].block == BlockAt(row, t)
  {
    var g := Grades(row);
    RankOfCode(t);
    forall k | 0 <= k < |g| && g[k].subject == SubjectCodes[t]
      ensures Fits(|row|, t) && g[k].block == BlockAt(row, t) && g[k].block.HasData()
    {
      assert FromRow(row, g[k], 0);
    }
  }

  /** `f"{student_id}_{national_id}"`. */
  function MakeKey(sid: string, nid: string): string {
    sid + "_" + nid
  }

  /** Splits a key at its first '_' into student id and national id. */
  function SplitKey(key: string): Option<(string, string)> {
    var sid := PrefixBefore(key, '_');
    if |sid| == |key| then None else Some((sid, key[|sid| + 1..]))
  }

  /** A key splits back into the ids it was made from: a student id is digits only,
      so the first '_' is the separator even when the national id holds '_'. */
  lemma SplitMakeKey(sid: string, nid: string)
    requires AllDigits(sid)
    ensures SplitKey(MakeKey(sid, nid)) == Some((sid, nid))
  {
    assert '_' !in sid by {
      assert forall i :: 0 <= i < |sid| ==> sid[i] != '_';
    }
    assert MakeKey(sid, nid) == sid + ['_'] + nid;
    PrefixBeforeSplit(sid, '_', nid);
  }

  /** Distinct id pairs give distinct keys. */
  lemma MakeKeyInjective(s1: string, n1: string, s2: string, n2: string)
    requires AllDigits(s1) && AllDigits(s2)
    requires MakeKey(s1, n1) == MakeKey(s2, n2)
    ensures s1 == s2 && n1 == n2
  {
    SplitMakeKey(s1, n1);
    SplitMakeKey(s2, n2);
  }

  /** The shape of every output key: a canonical student id, '_', an accepted national id. */
  predicate WellFormedKey(key: string) {
    match SplitKey(key)
    case None => false
    case Some((sid, nid)) => IsCanonical(sid) && ValidNationalId(nid)
  }

  /** Both ids of a row pass the checks on lines 91-100. */
  predicate IdsAccepted(row: Row)
    requires |row| > StudentIdColumn
  {
    var sid := StudentIdOf(row[StudentIdColumn]);
    sid.Success? && sid.value.Some? && ValidNationalId(NationalIdOf(row[NationalIdColumn]))
  }

  /** The body of the row loop, with each way out of it made explicit. */
  function ProcessRow(row: Row): RowOutcome
  {
    if |row| <= StudentIdColumn then Failed(ColumnMissing(StudentIdColumn))
    else
      match StudentIdOf(row[StudentIdColumn])
      case Failure(e) => Failed(e)
      case Success(None) => Skipped
      case Success(Some(sid)) =>
        var nid := NationalIdOf(row[NationalIdColumn]);
        if !ValidNationalId(nid) then Skipped
        else if |row| <= BehaviorColumn then Failed(ColumnMissing(|row|))
        else
          Accepted(MakeKey(sid, nid),
                   Record(TextField(row[StudentNameColumn]), TextField(row[ClassColumn]),
                          TextField(row[BehaviorColumn]), Grades(row)))
  }

  /** An accepted row is keyed by its two cleaned ids, and its key splits back into them. */
  lemma AcceptedKey(row: Row)
    requires ProcessRow(row).Accepted?
    ensures var sid := StudentIdOf(row[StudentIdColumn]).value.value;
            var nid := NationalIdOf(row[NationalIdColumn]);
            && ProcessRow(row).key == MakeKey(sid, nid)
            && SplitKey(ProcessRow(row).key) == Some((sid, nid))
            && WellFormedKey(ProcessRow(row).key)
  {
    SplitMakeKey(StudentIdOf(row[StudentIdColumn]).value.value, NationalIdOf(row[NationalIdColumn]));
  }

  /** The record of an accepted row: the three text fields from columns 2, 3 and 4 and the
      grades of the row. */
  lemma AcceptedRecord(row: Row)
    requires ProcessRow(row).Accepted?
    ensures ProcessRow(row).record == Record(TextField(row[StudentNameColumn]), TextField(row[ClassColumn]),
                                             TextField(row[BehaviorColumn]), Grades(row))
  {
  }

  /** How a row ends: it raises when column 1 is missing, when `int` rejects the student id,
      or when the ids pass but column 4 is missing; it is skipped when the student id is
      rejected or the national id is empty or "nan"; otherwise it is accepted. A row of at
      least five columns whose student id does not raise is never an error, however few
      subject columns it has. */
  lemma ProcessRowOutcome(row: Row)
    ensures ProcessRow(row).Failed? <==>
              || |row| <= StudentIdColumn
              || StudentIdOf(row[StudentIdColumn]).Failure?
              || (IdsAccepted(row) && |row| <= BehaviorColumn)
    ensures ProcessRow(row).Skipped? <==>
              |row| > StudentIdColumn && StudentIdOf(row[StudentIdColumn]).Success? && !IdsAccepted(row)
    ensures ProcessRow(row).Accepted? <==> |row| > BehaviorColumn && IdsAccepted(row)
  {
  }
}

=== FILE: scenarios.dfy ===
/** Worked inputs for the extractor: the id examples and a one-row sheet.

    The sample-row lemmas take the row, and the record they expect, as parameters pinned by
    `requires` (`IsSampleRow(row)`, `record == Record(..)`), and state the key as
    `MakeKey("55", "100200300")` with `SampleKey` giving its text. Literal rows, keys and
    records placed next to `ProcessRow` make the verifier evaluate every normalisation on
    them at once; as parameters, each literal fact is proved in its own small lemma.
    `SampleRowIsSample` shows the requirement is met by `SampleRow`. */
module Scenarios {
  import opened Wrappers
  import opened Decimal
  import opened Strings
  import opened Layout
  import opened Cells
  import opened Rows
  import opened Extraction

  /** "abc" and "." are not student ids. */
  lemma RejectedStudentIds()
    ensures StudentIdOf(Text("abc")) == Success(None)
    ensures StudentIdOf(Text(".")) == Success(None)
    ensures StudentIdOf(Missing) == Success(None)
  {
    assert !IsDigit('a');
    assert RemoveFirstDot("abc") == "abc";
    assert RemoveFirstDot(".") == "";
  }

  /** A row with only seven grade columns (twelve in all) holds at most the first subject,
      and processing it never raises once its ids pass. */
  lemma SevenGradeColumns(row: Row)
    requires |row| == 12
    ensures |Grades(row)| <= 1
    ensures forall k :: 0 <= k < |Grades(row)| ==> Grades(row)[k].subject == SubjectCodes[0]
    ensures !ProcessRow(row).Failed? || StudentIdOf(row[StudentIdColumn]).Failure?
  {
    var g := Grades(row);
    GradesWithinCovered(row);
    assert Covered(|row|) == 1;
    forall k | 0 <= k < |g| ensures g[k].subject == SubjectCodes[0] {
      assert FromRow(row, g[k], 0);
    }
    ProcessRowOutcome(row);
  }

  /** The sample row: ids 100200300.0 and 55.0, name "Ali", class "5A",
      behaviour "Good", then one subject block "A" to "E". */
  const SampleRow: Row := [
    Number("100200300.0"), Number("55.0"), Text("Ali"), Text("5A"), Text("Good"),
    Text("A"), Text("B"), Text("C"), Text("D"), Text("E")
  ]

  predicate IsSampleRow(row: Row) {
    && |row| == 10
    && row[0] == Number("100200300.0") && row[1] == Number("55.0")
    && row[2] == Text("Ali") && row[3] == Text("5A") && row[4] == Text("Good")
    && row[5] == Text("A") && row[6] == Text("B") && row[7] == Text("C")
    && row[8] == Text("D") && row[9] == Text("E")
  }

  /** `SampleRow` meets the requirement of the sample-row lemmas. */
  lemma SampleRowIsSample()
    ensures IsSampleRow(SampleRow)
  {
  }

  lemma StripsToItself(s: string)
    requires Trimmed(s)
    ensures Strip(s) == s
  {
    assert [] + s + [] == s;
    StripUnique([], s, []);
  }

  /** A student id of 55.0 gives "55". */
  lemma SampleStudentId()
    ensures StudentIdOf(Number("55.0")) == Success(Some("55"))
  {
    assert IsCanonical("55");
    assert "55.0" == "55" + "." + "0";
    StudentIdOfFloat("55", "0");
  }

  /** A national id of 100200300.0 gives "100200300". */
  lemma SampleNationalId()
    ensures NationalIdOf(Number("100200300.0")) == "100200300"
  {
    var c := Number("100200300.0");
    assert c.Str() == [] + "100200300" + ".0" + [];
    NationalIdDropsOneSuffix(c, [], "100200300", []);
  }

  /** "1.0.0" loses only its last ".0". */
  lemma NationalIdOneSuffixOnly()
    ensures NationalIdOf(Text("1.0.0")) == "1.0"
  {
    var c := Text("1.0.0");
    assert c.Str() == [] + "1.0" + ".0" + [];
    NationalIdDropsOneSuffix(c, [], "1.0", []);
  }

  lemma TextFieldOfTrimmed(s: string)
    requires Trimmed(s)
    ensures TextField(Text(s)) == s
  {
    StripsToItself(s);
  }

  /** Five present cells "A" to "E" make the block of subject 0. */
  lemma SampleBlock(row: Row)
    requires |row| == 10
    requires row[5] == Text("A") && row[6] == Text("B") && row[7] == Text("C")
    requires row[8] == Text("D") && row[9] == Text("E")
    ensures BlockAt(row, 0) == Block("A", "B", "C", "D", "E")
  {
    StripsToItself("A");
    StripsToItself("B");
    StripsToItself("C");
    StripsToItself("D");
    StripsToItself("E");
  }

  /** Ten columns hold the first subject block only. */
  lemma SampleGrades(row: Row)
    requires |row| == 10
    requires row[5] == Text("A") && row[6] == Text("B") && row[7] == Text("C")
    requires row[8] == Text("D") && row[9] == Text("E")
    ensures Grades(row) == [Grade("islamic_education", Block("A", "B", "C", "D", "E"))]
  {
    assert GradesFrom(row, 1) == [] by {
      assert !Fits(|row|, 1);
    }
    var b := Block("A", "B", "C", "D", "E");
    assert BlockAt(row, 0) == b by {
      SampleBlock(row);
    }
    assert b.Values()[0] != NotAvailable;
  }

  /** The outcome of a row whose ids pass, in terms of its normalised fields. */
  lemma AcceptedRow(row: Row, sid: string, nid: string, key: string, record: Record)
    requires |row| > BehaviorColumn
    requires StudentIdOf(row[StudentIdColumn]) == Success(Some(sid))
    requires NationalIdOf(row[NationalIdColumn]) == nid && ValidNationalId(nid)
    requires key == MakeKey(sid, nid)
    requires record == Record(TextField(row[StudentNameColumn]), TextField(row[ClassColumn]),
                              TextField(row[BehaviorColumn]), Grades(row))
    ensures ProcessRow(row) == Accepted(key, record)
  {
  }

  lemma SampleRowAccepted(row: Row, sid: string, nid: string, key: string, record: Record)
    requires IsSampleRow(row)
    requires sid == "55" && nid == "100200300" && key == MakeKey(sid, nid)
    requires record == Record(TextField(row[StudentNameColumn]), TextField(row[ClassColumn]),
                              TextField(row[BehaviorColumn]), Grades(row))
    ensures ProcessRow(row) == Accepted(key, record)
  {
    SampleStudentId();
    SampleNationalId();
    AcceptedRow(row, sid, nid, key, record);
  }

  lemma SampleRecord(row: Row)
    requires IsSampleRow(row)
    ensures Record(TextField(row[StudentNameColumn]), TextField(row[ClassColumn]),
                   TextField(row[BehaviorColumn]), Grades(row))
            == Record("Ali", "5A", "Good", [Grade("islamic_education", Block("A", "B", "C", "D", "E"))])
  {
    TextFieldOfTrimmed("Ali");
    TextFieldOfTrimmed("5A");
    TextFieldOfTrimmed("Good");
    SampleGrades(row);
  }

  /** The sample row's key is the digits of its two ids joined by an underscore. */
  lemma SampleKey()
    ensures MakeKey("55", "100200300") == "55_100200300"
  {
  }

  /** The sample row is accepted under key `MakeKey("55", "100200300")`, i.e. "55_100200300",
      with the trimmed name, class and behaviour and one subject block. */
  lemma SampleRowOutcome(row: Row, record: Record)
    requires IsSampleRow(row)
    requires record == Record("Ali", "5A", "Good", [Grade("islamic_education", Block("A", "B", "C", "D", "E"))])
    ensures ProcessRow(row) == Accepted(MakeKey("55", "100200300"), record)
  {
    SampleRecord(row);
    SampleRowAccepted(row, "55", "100200300", MakeKey("55", "100200300"), record);
  }

  /** Of the configured sheets only "GRADE 5" is present, and its one data row follows the
      three header rows. */
  lemma SampleDataRows(wb: Workbook, row: Row)
    requires wb == map["GRADE 5" := [[Missing], [Missing], [Missing], row]]
    ensures AllDataRows(wb, SheetNames) == [row]
  {
    assert DataRows(wb["GRADE 5"]) == [row];
    var later := SheetNames[1..];
    assert later == ["GRADE 6", "GRADE 7", "GRADE 8"];
    forall i | 0 <= i < |later| ensures later[i] !in wb {
      assert later[i][6] != "GRADE 5"[6];
    }
    assert AllDataRows(wb, later[3..]) == [];
    assert AllDataRows(wb, later[2..]) == [];
    assert AllDataRows(wb, later[1..]) == [];
    assert AllDataRows(wb, later) == [];
  }

  /** One sheet "GRADE 5" with three header rows and the sample row yields exactly one record. */
  lemma SampleWorkbook(wb: Workbook, row: Row, record: Record)
    requires IsSampleRow(row)
    requires wb == map["GRADE 5" := [[Missing], [Missing], [Missing], row]]
    requires record == Record("Ali", "5A", "Good", [Grade("islamic_education", Block("A", "B", "C", "D", "E"))])
    ensures Extract(wb) == map[MakeKey("55", "100200300") := record]
  {
    SampleDataRows(wb, row);
    ExtractSheetsIsRowFold(map[], wb, SheetNames);
    SampleRowOutcome(row, record);
    SingleRowExtracted(row, MakeKey("55", "100200300"), record);
  }
}

=== FILE: strings.dfy ===
/** The Python string operations the extractor applies to cell text:
    `strip()`, `replace('.', '', 1)` and `endswith`. */
module Strings {
  import opened Decimal

  /** The characters Python's `str.isspace` accepts: tab to carriage return, the four
      information separators, space, NEL, no-break space, the Ogham space mark, the
      typographic spaces, the line and paragraph separators and three further spaces. */
  predicate IsSpace(c: char) {
    || '\t' <= c <= '\r'
    || '\U{1C}' <= c <= ' '
    || c == '\U{85}' || c == '\U{A0}' || c == '\U{1680}'
    || '\U{2000}' <= c <= '\U{200A}'
    || c == '\U{2028}' || c == '\U{2029}' || c == '\U{202F}' || c == '\U{205F}' || c == '\U{3000}'
  }

  predicate AllSpace(s: string) {
    forall i :: 0 <= i < |s| ==> IsSpace(s[i])
  }

  /** Neither end of `s` is whitespace. */
  predicate Trimmed(s: string) {
    s == [] || (!IsSpace(s[0]) && !IsSpace(s[|s| - 1]))
  }

  /** `s.lstrip()`. */
  function StripStart(s: string): string {
    if s != [] && IsSpace(s[0]) then StripStart(s[1..]) else s
  }

  /** `s.rstrip()`. */
  function StripEnd(s: string): string {
    if s != [] && IsSpace(s[|s| - 1]) then StripEnd(s[..|s| - 1]) else s
  }

  /** `s.strip()`. */
  function Strip(s: string): string {
    StripEnd(StripStart(s))
  }

  /** `lstrip` removes a whitespace prefix and nothing more. */
  lemma {:induction false} StripStartSpec(s: string)
    ensures var r := StripStart(s);
            && |r| <= |s| && r == s[|s| - |r|..]
            && AllSpace(s[..|s| - |r|])
            && (r == [] || !IsSpace(r[0]))
  {
    if s != [] && IsSpace(s[0]) {
      StripStartSpec(s[1..]);
      var r := StripStart(s);
      assert s[..|s| - |r|] == [s[0]] + s[1..][..|s| - 1 - |r|];
    }
  }

  /** `rstrip` removes a whitespace suffix and nothing more. */
  lemma {:induction false} StripEndSpec(s: string)
    ensures var r := StripEnd(s);
            && |r| <= |s| && r == s[..|r|]
            && AllSpace(s[|r|..])
            && (r == [] || !IsSpace(r[|r| - 1]))
  {
    if s != [] && IsSpace(s[|s| - 1]) {
      StripEndSpec(s[..|s| - 1]);
      var r := StripEnd(s);
      assert s[|r|..] == s[..|s| - 1][|r|..] + [s[|s| - 1]];
    }
  }

  /** `r` is a slice of `s` with only whitespace on either side of it. */
  predicate SlicedFrom(s: string, r: string) {
    exists a :: 0 <= a && a + |r| <= |s| && r == s[a..a + |r|]
                && AllSpace(s[..a]) && AllSpace(s[a + |r|..])
  }

  /** `strip` yields a trimmed slice of its argument with only whitespace cut off. */
  lemma StripSpec(s: string)
    ensures Trimmed(Strip(s))
    ensures SlicedFrom(s, Strip(s))
  {
    var t := StripStart(s);
    var r := StripEnd(t);
    StripStartSpec(s);
    StripEndSpec(t);
    var a := |s| - |t|;
    assert r == t[..|r|] == s[a..a + |r|];
    assert AllSpace(s[..a]);
    assert t[|r|..] == s[a + |r|..];
    assert AllSpace(s[a + |r|..]);
    if r != [] {
      assert r[0] == t[0];
    }
  }

  lemma {:induction false} StripStartOfPadded(p: string, x: string)
    requires AllSpace(p)
    requires x == [] || !IsSpace(x[0])
    ensures StripStart(p + x) == x
  {
    if p != [] {
      assert (p + x)[1..] == p[1..] + x;
      StripStartOfPadded(p[1..], x);
    }
  }

  lemma {:induction false} StripEndOfPadded(x: string, q: string)
    requires AllSpace(q)
    requires x == [] || !IsSpace(x[|x| - 1])
    ensures StripEnd(x + q) == x
  {
    if q != [] {
      assert (x + q)[..|x + q| - 1] == x + q[..|q| - 1];
      StripEndOfPadded(x, q[..|q| - 1]);
    }
  }

  /** `strip` is characterised by its contract: any decomposition of a string into
      whitespace, a trimmed middle and whitespace yields that middle. */
  lemma StripUnique(p: string, m: string, q: string)
    requires AllSpace(p) && AllSpace(q) && Trimmed(m)
    ensures Strip(p + m + q) == m
  {
    if m == [] {
      assert p + m + q == p + q;
      assert AllSpace(p + q);
      StripStartOfPadded(p + q, []);
      assert p + q + [] == p + q;
    } else {
      assert p + m + q == p + (m + q);
      StripStartOfPadded(p, m + q);
      StripEndOfPadded(m, q);
    }
  }

  /** Stripping twice is stripping once. */
  lemma StripIdempotent(s: string)
    ensures Strip(Strip(s)) == Strip(s)
  {
    var m := Strip(s);
    StripSpec(s);
    assert [] + m + [] == m;
    StripUnique([], m, []);
  }

  predicate EndsWith(s: string, suffix: string) {
    |suffix| <= |s| && s[|s| - |suffix|..] == suffix
  }

  /** The text before the first `sep`, or all of `s` when it has none. */
  function PrefixBefore(s: string, sep: char): (r: string)
    ensures sep !in r
    ensures |r| <= |s| && r == s[..|r|]
    ensures |r| < |s| ==> s[|r|] == sep
  {
    if s == [] || s[0] == sep then [] else [s[0]] + PrefixBefore(s[1..], sep)
  }

  /** The prefix before the first separator of `x + [sep] + y` is `x` when `x` holds none. */
  lemma PrefixBeforeSplit(x: string, sep: char, y: string)
    requires sep !in x
    ensures PrefixBefore(x + [sep] + y, sep) == x
  {
    var s := x + [sep] + y;
    assert forall i :: 0 <= i < |x| ==> s[i] == x[i];
    assert s[|x|] == sep;
  }

  /** The digits before the decimal point of a number's rendering. */
  function IntegerPart(s: string): (r: string)
    ensures '.' !in r
    ensures |r| <= |s| && r == s[..|r|]
    ensures |r| < |s| ==> s[|r|] == '.'
  {
    PrefixBefore(s, '.')
  }

  /** `s.replace('.', '', 1)`: `s` without its first '.', or `s` when it has none. */
  function RemoveFirstDot(s: string): (r: string)
    ensures '.' !in s ==> r == s
    ensures '.' in s ==> exists i :: 0 <= i < |s| && s[i] == '.' && '.' !in s[..i] && r == s[..i] + s[i + 1..]
  {
    var k := |IntegerPart(s)|;
    if k == |s| then
      assert s == IntegerPart(s);
      s
    else
      assert s[k] == '.';
      s[..k] + s[k + 1..]
  }

  /** Every character is a digit or '.', there is at most one '.', and at least one digit. */
  predicate DigitsWithOptionalDot(s: string) {
    && (forall i :: 0 <= i < |s| ==> IsDigit(s[i]) || s[i] == '.')
    && multiset(s)['.'] <= 1
    && multiset(s)['.'] < |s|
  }

  /** The guard on a string with one '.' at the split point. */
  lemma DotGuardSplit(x: string, y: string)
    requires '.' !in x
    ensures IsDigitString(x + y) <==> DigitsWithOptionalDot(x + ['.'] + y)
  {
    var s := x + ['.'] + y;
    assert multiset(s) == multiset(x) + multiset{'.'} + multiset(y);
    assert multiset(x)['.'] == 0;
    assert multiset(s)['.'] == 1 + multiset(y)['.'];
    if IsDigitString(x + y) {
      assert forall j :: 0 <= j < |y| ==> y[j] == (x + y)[|x| + j];
      forall k | 0 <= k < |s|
        ensures IsDigit(s[k]) || s[k] == '.'
      {
        if k < |x| { assert s[k] == (x + y)[k]; }
        else if k > |x| { assert s[k] == (x + y)[k - 1]; }
      }
    }
    if DigitsWithOptionalDot(s) {
      assert '.' !in y;
      forall k | 0 <= k < |x + y|
        ensures IsDigit((x + y)[k])
      {
        if k < |x| { assert (x + y)[k] == s[k]; assert s[k] in x; }
        else { assert (x + y)[k] == s[k + 1] == y[k - |x|]; }
      }
    }
  }

  /** The acceptance guard `s.replace('.', '', 1).isdigit()` holds exactly for strings of
      digits with at most one '.' and at least one digit; "." alone is refused. */
  lemma DotGuardCharacterised(s: string)
    ensures IsDigitString(RemoveFirstDot(s)) <==> DigitsWithOptionalDot(s)
  {
    var r := RemoveFirstDot(s);
    if '.' in s {
      var i :| 0 <= i < |s| && s[i] == '.' && '.' !in s[..i] && r == s[..i] + s[i + 1..];
      assert s == s[..i] + ['.'] + s[i + 1..];
      DotGuardSplit(s[..i], s[i + 1..]);
    } else {
      assert multiset(s)['.'] == 0;
    }
  }
}

=== FILE: wrappers.dfy ===
/** Failure-compatible result types used by the extractor model. */
module Wrappers {

  datatype Option<+T> = None | Some(value: T)

  /** Either a value or the reason the computation raised. */
  datatype Result<+T, +E> = Success(value: T) | Failure(error: E)
}
